=== FILE: README.md ===
# Team membership model

A Dafny model of the team controller of the HGN REST service
(`src/controllers/teamController.js`). The controller is a set of Express
handlers over two MongoDB collections: teams, and user profiles. With the
HTTP and driver code taken away, each handler is a deterministic transition
over two stores:

- **teams**: team id → `Team(teamName, isActive, teamCode, members, createdDatetime, modifiedDatetime)`,
  where `members` is a sequence of `Member(userId, visible)`;
- **profiles**: user id → the set of team ids in that profile's `teams` field.

Each handler that writes (`PostTeam`, `PutTeam`, `DeleteTeam`,
`AssignTeamToUsers`, `UpdateTeamVisibility`) is a pure function from the
stores and the request to a `Step(result, db)`. The read handlers
(`GetAllTeams`, `GetTeamById`, `GetTeamMembership`) return their value alone:
the sorted listing, the team or none, and the join documents or `InvalidId`.
For a writing handler, `result` is `Ok(value)` or `Err(failure)`, and `failure`
says which check refused the request: `Forbidden`, `NameTaken`, `InvalidId`,
`NoRecord` or `NotMember`. `Thrown` stands for a handler that throws inside a
callback and never replies. `db` is the stores afterwards. The MongoDB update
operators are modelled by what they do:

- `$addToSet` is set insertion;
- `$pull` removes every matching entry;
- `updateMany({ _id: { $in: ids } }, …)` updates each existing profile whose id is in `ids`;
- `updateMany({}, …)` updates every profile.

Inputs that come from outside the controller are parameters:

- the answer of the permission service (`hasPermission`) is the boolean `permitted`;
- `mongoose.Types.ObjectId.isValid(teamId)` is the boolean `teamIdWellFormed`;
- `Date.now()` is the timestamp `now`;
- the id MongoDB gives a new team is `newId`, which must not be stored already.

Modules:

- `Outcomes` (`outcomes.dfy`): `Option`, `Failure`, `Result`.
- `Store` (`store.dfy`): the documents and the update operators on members and profiles. It also defines the collection invariants: unique names, no profile referring to a missing team, and no user listed twice in a team.
- `TeamOrder` (`team_order.dfy`): the order `sort({ teamName: 1 })` uses, and insertion into a sorted listing.
- `TeamController` (`team_controller.dfy`): the handlers `GetAllTeams`, `GetTeamById`, `PostTeam`, `PutTeam`, `DeleteTeam`, `AssignTeamToUsers`, `GetTeamMembership` and `UpdateTeamVisibility`.
- `TeamProperties` (`team_properties.dfy`): lemmas that relate several calls (idempotence, undo, a second create, a second delete) and the invariants each handler keeps.

Each handler that checks a permission (`PostTeam`, `PutTeam`, `DeleteTeam`,
`AssignTeamToUsers`) states in its contract that a refusal leaves both
stores unchanged.

The model deliberately does not claim that a member's `visible` flag agrees
with whether the member's profile lists the team. The code does not keep that
agreement. An Assign never sets the flag. The visibility cascade changes the
profiles of the other members and leaves the acting member's profile alone.
`TeamProperties.VisibilityCascadeScenario` shows this on a team of three
members.

Some behaviours of the code that a reader might not expect, all modelled as
the code has them:

- A rename through `putTeam` is not checked against the other team names. So
  names are unique after every handler except `PutTeam`
  (`TeamProperties.PutTeamMayDuplicateName`).
- `putTeam` resets `createdDatetime` as well as `modifiedDatetime`.
- `assignTeamToUsers` treats every operation other than `"Assign"` as an
  Unassign.
- In `putTeam`, a requestor that is not an Owner and whose `permissions`
  object has no `frontPermissions` array makes the `includes` call throw
  (line 115), so no reply is sent and nothing is written.
- `updateTeamVisibility` checks no permission: any request that names a
  member of the team changes that member's flag and runs the cascade.

## Model

| member | source | states |
|---|---|---|
| Store.AddMember | src/controllers/teamController.js:168-172 | `$addToSet` of a member: the old entries stay as a prefix, at most one entry is added and it carries only the user id (the visible flag is not set), the users listed are the old ones plus the user, an existing member leaves the array unchanged, and distinct users stay distinct |
| Store.PullMember | src/controllers/teamController.js:180-183 | `$pull` of a member: exactly the entries of other users remain, the user is no longer listed, every other user stays listed exactly when listed before, a non-member leaves the array unchanged, and distinct users stay distinct |
| Store.PullMemberConcat | src/controllers/teamController.js:180-183 | `$pull` works entry by entry: pulling from a concatenation is the concatenation of the pulls, so the remaining entries keep their order and count |
| Store.PullMemberOne | src/controllers/teamController.js:180-183 | on a single entry, `$pull` removes it exactly when it belongs to the user |
| Store.FindMember | src/controllers/teamController.js:243-247 | `findIndex`: no index exactly when the user is not listed; otherwise the index of an entry of the user with no earlier entry of theirs |
| Store.OtherMembers | src/controllers/teamController.js:255-269 | the ids the cascade pushes: exactly the listed users other than the acting one |
| Store.AddTeamTo | src/controllers/teamController.js:271-273 | `updateMany` with `$in` and `$addToSet`: the same profiles exist; each selected profile gains the team and keeps its other teams; unselected profiles are untouched |
| Store.PullTeamFrom | src/controllers/teamController.js:274-276 | `updateMany` with `$in` and `$pull`: the same profiles exist; each selected profile loses the team and keeps its other teams; unselected profiles are untouched |
| Store.AddTeamToIdempotent | src/controllers/teamController.js:271-273 | applying the same `$addToSet` bulk update twice equals applying it once |
| Store.PullTeamFromIdempotent | src/controllers/teamController.js:274-276 | applying the same `$pull` bulk update twice equals applying it once |
| TeamOrder.NameLeTotal | src/controllers/teamController.js:10 | any two team names are comparable in the sort order |
| TeamOrder.NameLeTransitive | src/controllers/teamController.js:10 | the sort order on team names is transitive |
| TeamOrder.InsertByName | src/controllers/teamController.js:10 | inserting a team into a listing sorted by name keeps it sorted and adds exactly that team |
| TeamController.GetAllTeams | src/controllers/teamController.js:8-16 | the listing is sorted by team name ascending and holds every stored team exactly once, paired with its id |
| TeamController.GetTeamById | src/controllers/teamController.js:18-27 | a team is returned exactly when one is stored under the id, and it is that team |
| TeamController.JoinProfiles | src/controllers/teamController.js:203-224 | the join yields only documents of listed users whose profile exists, with that profile's teams; every listed user with a profile yields a document; users without a profile are dropped; with every profile present there is one document per entry; distinct users give distinct documents |
| TeamController.JoinProfilesCounts | src/controllers/teamController.js:203-224 | `$unwind` yields one document per entry: each user with a profile has exactly as many documents as member entries |
| TeamController.GetTeamMembership | src/controllers/teamController.js:197-230 | an ill-formed id is refused as InvalidId; an unknown team gives no documents; otherwise the documents are the join of the members with their existing profiles, one per entry of a user with a profile |
| TeamController.PostTeam | src/controllers/teamController.js:29-56 | refused with no change without permission or when the name is in use; otherwise it succeeds, profiles are unchanged, and exactly one team is added with the given name, activity and no members, all other teams unchanged |
| TeamController.PutTeam | src/controllers/teamController.js:99-126 | refused with no change without the putTeam permission or for an unknown team; a non-Owner whose permissions object lacks `frontPermissions` makes it throw with no change; otherwise it is refused with no change unless the requestor is Owner or holds editTeamCode; otherwise it overwrites name, activity, code and both timestamps, keeps the members, and changes no other team and no profile |
| TeamController.DeleteTeam | src/controllers/teamController.js:69-87 | refused with no change without permission or for an unknown team; otherwise the team is gone, every other team is unchanged, no profile lists the team, and each profile keeps all its other teams |
| TeamController.AssignTeamToUsers | src/controllers/teamController.js:138-190 | refused with no change without permission, for an empty or ill-formed id, or for an unknown team; otherwise only that team (members and modification time) and that user's profile (this team only) change. An Assign adds at most one entry, at the end and with the visible flag not set, makes the user a member and puts the team in the profile; any other operation is the `$pull` of the user's entries (the others keep their order) and takes the team out of the profile |
| TeamController.UpdateTeamVisibility | src/controllers/teamController.js:231-276 | refused with no change for an unknown team or a non-member; otherwise only the flag of the user's first entry changes. Every other member's profile lists the team exactly when the new flag is true and keeps its other teams. The acting user's profile and non-members' profiles are unchanged |
| TeamProperties.PostTeamPreservesInvariants | src/controllers/teamController.js:35-56 | creating a team keeps names unique, references intact and members distinct |
| TeamProperties.SecondPostWithSameNameFails | src/controllers/teamController.js:35-38 | of two creations with one name, the first succeeds and the second is refused with NameTaken and changes nothing |
| TeamProperties.PutTeamPreservesConsistency | src/controllers/teamController.js:122-126 | an update keeps profile references intact and members distinct |
| TeamProperties.PutTeamMayDuplicateName | src/controllers/teamController.js:122 | an update can give a team the name of another team: unique names before, duplicate names after |
| TeamProperties.DeleteTeamPreservesInvariants | src/controllers/teamController.js:80-83 | a deletion keeps names unique and leaves no profile referring to a missing team |
| TeamProperties.DeletedTeamIsGone | src/controllers/teamController.js:75-83 | after a deletion the team is not found, no profile lists it, and deleting it again is refused with no change |
| TeamProperties.AssignPreservesInvariants | src/controllers/teamController.js:167-188 | assign and unassign keep names unique, members distinct and references intact |
| TeamProperties.AssignIsIdempotent | src/controllers/teamController.js:168-176 | a second identical Assign leaves the stores and the reply as the first left them |
| TeamProperties.UnassignUndoesAssign | src/controllers/teamController.js:167-188 | for a user who was not a member and whose profile lacked the team, an Unassign after an Assign restores both stores except the team's modification time |
| TeamProperties.UnassignNonMemberChangesOnlyTime | src/controllers/teamController.js:179-189 | unassigning a non-member whose profile lacks the team succeeds and changes only the team's modification time |
| TeamProperties.VisibilityPreservesInvariants | src/controllers/teamController.js:249-276 | the cascade keeps names unique, members distinct and references intact |
| TeamProperties.VisibilityIsIdempotent | src/controllers/teamController.js:243-276 | repeating a visibility change gives the same reply and stores as the first call |
| TeamProperties.VisibilityCascadeScenario | src/controllers/teamController.js:255-276 | with three distinct members a, b and c, making the team visible for a adds it to the profiles of b and c and leaves the profile of a as it was |

## Left out

- HTTP: requests, responses and status codes are not modelled. This includes the `res.send(x).status(…)` calls and the `.then(res.status(…))` argument evaluated before the promise settles.
- Store failures are not modelled: driver errors, the `catch` branches, the 500 replies, and a user id that cannot be cast to an object id after the team write. Each handler is one sequential, all-or-nothing step, so the partial failures of the concurrent two-store writes (`Promise.all`) are out of scope.
- The second name check in `postTeam` (lines 47-51) is not modelled separately. It repeats the check of lines 35-38, so in a sequential step it can never refuse.
- The permission service, the profile cache invalidation (line 165), and the logging and console output are external collaborators or side effects.
- Object-id validity is a boolean input rather than a check on the id's text.
- User ids are compared as plain strings everywhere. The code compares `member.userId.toString()` with the raw request string in `updateTeamVisibility` (lines 243 and 258), but casts the request string to an object id for the member writes of `assignTeamToUsers` (lines 170 and 182) and for its profile lookups `{ _id: userId }` (lines 174 and 185). The cascade's profile writes (lines 272-275) use the stored member ids, as the model does. So an id written in upper-case hex is a member for Assign and Unassign but not for the visibility update. The model assumes ids in canonical form.
- TeamController.UpdateTeamVisibility: `visibility` is a boolean. The code stores the request value as it is (line 249) and branches on its JavaScript truthiness (line 263), so a non-boolean value such as the string `"false"` is stored as given and still adds the team to the other members' profiles; that case is not modelled.
- Schema defaults of member entries (`addDateTime`, the default of `visible`, subdocument `_id`) are not modelled, since the team schema is not part of this model. A member added by Assign has `visible = None` ("not set"). `$addToSet` on members is modelled with the set semantics it is used for: an existing entry of the same user means no change.
- Profile fields other than `teams` are not modelled. A join document carries the user id and the profile's teams; `addDateTime` is left out with the schema defaults.
- TeamController.GetTeamMembership: the order of the join documents is not stated; the aggregation pipeline does not promise one.
- TeamOrder.NameLeTotal: names are compared by character code; MongoDB collation settings are not modelled.
- The router wiring files and the `wbsController` tests concern other components.

=== FILE: outcomes.dfy ===
/** The value a team handler produces, or the reason it refused the request. */
module Outcomes {

  datatype Option<+T> = None | Some(value: T)

  /** Why a team handler refused a request. Each reason but `Thrown` is
      answered with a 403 or a 400 response; the status codes themselves are
      not modelled. */
  datatype Failure =
    | Forbidden   // the requestor lacks the permission the handler checks (403)
    | NameTaken   // a team with the requested name is already stored (403)
    | InvalidId   // the team id is empty or not a well-formed object id (400)
    | NoRecord    // no team is stored under the id (400)
    | NotMember   // the user has no entry in the team's members (400)
    | Thrown      // the handler throws inside a callback and sends no response

  datatype Result<+T> = Ok(value: T) | Err(failure: Failure)
}

=== FILE: store.dfy ===
/** The two document collections the team handlers read and write, and the
    update operators they apply to them. */
module Store {
  import opened Outcomes

  type TeamId = string
  type UserId = string

  /** `Date.now()` values; the caller supplies them. */
  type Timestamp = int

  /** One entry of a team's `members` array. `visible` stays None until the
      visibility handler sets it: no other handler writes the flag. */
  datatype Member = Member(userId: UserId, visible: Option<bool>)

  datatype Team = Team(
    teamName: string,
    isActive: bool,
    teamCode: Option<string>,
    members: seq<Member>,
    createdDatetime: Timestamp,
    modifiedDatetime: Timestamp)

  /** The `teams` field of every stored user profile, keyed by profile id.
      The other profile fields are never written by the team handlers. */
  type Profiles = map<UserId, set<TeamId>>

  /** Both collections: teams by id and profiles by id. */
  datatype Db = Db(teams: map<TeamId, Team>, profiles: Profiles)

  predicate IsMember(members: seq<Member>, u: UserId) {
    exists i :: 0 <= i < |members| && members[i].userId == u
  }

  /** The query `Team.exists({ teamName: name })`. */
  predicate NameInUse(teams: map<TeamId, Team>, name: string) {
    exists id :: id in teams && teams[id].teamName == name
  }

  // ---------------------------------------------------------------------
  // Update operators on a team's members
  // ---------------------------------------------------------------------

  /** `$addToSet: { members: { userId: u } }`, where an entry counts as present
      when some entry already carries user id `u`. */
  function AddMember(members: seq<Member>, u: UserId): (r: seq<Member>)
    ensures members <= r && |r| <= |members| + 1
    ensures forall v :: IsMember(r, v) <==> IsMember(members, v) || v == u
    ensures IsMember(members, u) ==> r == members
    ensures forall i :: |members| <= i < |r| ==> r[i] == Member(u, None)
    ensures MembersDistinct(members) ==> MembersDistinct(r)
  {
    if IsMember(members, u) then members
    else
      var r := members + [Member(u, None)];
      assert r[|members|].userId == u;
      assert forall i :: 0 <= i < |members| ==> r[i] == members[i];
      r
  }

  /** `$pull: { members: { userId: u } }`: every entry with user id `u` is
      removed and the others keep their order. */
  function PullMember(members: seq<Member>, u: UserId): (r: seq<Member>)
    ensures forall m :: m in r <==> m in members && m.userId != u
    ensures !IsMember(r, u)
    ensures forall v :: v != u ==> (IsMember(r, v) <==> IsMember(members, v))
    ensures !IsMember(members, u) ==> r == members
    ensures MembersDistinct(members) ==> MembersDistinct(r)
  {
    if |members| == 0 then []
    else if members[0].userId == u then PullMember(members[1..], u)
    else [members[0]] + PullMember(members[1..], u)
  }

  /** `$pull` works entry by entry: pulling from a concatenation is pulling
      from each part, so the entries that stay keep their order. */
  lemma {:induction false} PullMemberConcat(x: seq<Member>, y: seq<Member>, u: UserId)
    ensures PullMember(x + y, u) == PullMember(x, u) + PullMember(y, u)
    decreases |x|
  {
    if |x| == 0 {
      assert x + y == y;
    } else {
      assert (x + y)[0] == x[0];
      assert (x + y)[1..] == x[1..] + y;
      PullMemberConcat(x[1..], y, u);
    }
  }

  /** On one entry, `$pull` drops it exactly when it is the user's. */
  lemma PullMemberOne(m: Member, u: UserId)
    ensures PullMember([m], u) == if m.userId == u then [] else [m]
  {
    assert [m][1..] == [];
  }

  /** The number of entries of user `u`. */
  function CountEntries(members: seq<Member>, u: UserId): (n: nat)
    ensures n <= |members|
    ensures n == 0 <==> !IsMember(members, u)
  {
    if |members| == 0 then 0
    else
      var rest := CountEntries(members[1..], u);
      assert IsMember(members, u) <==> members[0].userId == u || IsMember(members[1..], u) by {
        if IsMember(members[1..], u) {
          var i :| 0 <= i < |members[1..]| && members[1..][i].userId == u;
          assert members[i + 1].userId == u;
        }
        if IsMember(members, u) && members[0].userId != u {
          var i :| 0 <= i < |members| && members[i].userId == u;
          assert members[1..][i - 1].userId == u;
        }
      }
      (if members[0].userId == u then 1 else 0) + rest
  }

  /** `members.findIndex(m => m.userId === u)`, with None standing for -1. */
  function FindMember(members: seq<Member>, u: UserId): (r: Option<nat>)
    ensures r.None? <==> !IsMember(members, u)
    ensures r.Some? ==> r.value < |members| && members[r.value].userId == u
    ensures r.Some? ==> forall j :: 0 <= j < r.value ==> members[j].userId != u
  {
    if |members| == 0 then None
    else if members[0].userId == u then Some(0)
    else match FindMember(members[1..], u)
      case None => None
      case Some(i) => Some(i + 1)
  }

  /** The user ids of the entries that do not belong to `u`. */
  function OtherMembers(members: seq<Member>, u: UserId): (r: set<UserId>)
    ensures forall v :: v in r <==> IsMember(members, v) && v != u
  {
    set m | m in members && m.userId != u :: m.userId
  }

  // ---------------------------------------------------------------------
  // Update operators on the profiles
  // ---------------------------------------------------------------------

  /** `updateMany({ _id: { $in: ids } }, { $addToSet: { teams: t } })`: no
      profile is created for an id that has none. */
  function AddTeamTo(profiles: Profiles, ids: set<UserId>, t: TeamId): (r: Profiles)
    ensures r.Keys == profiles.Keys
    ensures forall u :: u in profiles && u in ids ==> t in r[u] && r[u] - {t} == profiles[u] - {t}
    ensures forall u :: u in profiles && u !in ids ==> r[u] == profiles[u]
  {
    map u | u in profiles :: if u in ids then profiles[u] + {t} else profiles[u]
  }

  /** `updateMany({ _id: { $in: ids } }, { $pull: { teams: t } })`. */
  function PullTeamFrom(profiles: Profiles, ids: set<UserId>, t: TeamId): (r: Profiles)
    ensures r.Keys == profiles.Keys
    ensures forall u :: u in profiles && u in ids ==> t !in r[u] && r[u] - {t} == profiles[u] - {t}
    ensures forall u :: u in profiles && u !in ids ==> r[u] == profiles[u]
  {
    map u | u in profiles :: if u in ids then profiles[u] - {t} else profiles[u]
  }

  /** Applying the same `$addToSet` bulk update twice is applying it once. */
  lemma AddTeamToIdempotent(profiles: Profiles, ids: set<UserId>, t: TeamId)
    ensures AddTeamTo(AddTeamTo(profiles, ids, t), ids, t) == AddTeamTo(profiles, ids, t)
  {
    var p1 := AddTeamTo(profiles, ids, t);
    forall u | u in p1 ensures AddTeamTo(p1, ids, t)[u] == p1[u] {
      if u in ids {
        assert p1[u] == profiles[u] + {t};
      }
    }
  }

  /** Applying the same `$pull` bulk update twice is applying it once. */
  lemma PullTeamFromIdempotent(profiles: Profiles, ids: set<UserId>, t: TeamId)
    ensures PullTeamFrom(PullTeamFrom(profiles, ids, t), ids, t) == PullTeamFrom(profiles, ids, t)
  {
    var p1 := PullTeamFrom(profiles, ids, t);
    forall u | u in p1 ensures PullTeamFrom(p1, ids, t)[u] == p1[u] {
      if u in ids {
        assert p1[u] == profiles[u] - {t};
      }
    }
  }

  // ---------------------------------------------------------------------
  // Invariants of the two collections
  // ---------------------------------------------------------------------

  /** No two entries of a members array carry the same user id. */
  ghost predicate MembersDistinct(members: seq<Member>) {
    forall i, j :: 0 <= i < j < |members| ==> members[i].userId != members[j].userId
  }

  /** No two stored teams share a name. */
  ghost predicate UniqueNames(db: Db) {
    forall a, b :: a in db.teams && b in db.teams && db.teams[a].teamName == db.teams[b].teamName ==> a == b
  }

  /** Every team a profile refers to is stored. */
  ghost predicate NoDanglingTeams(db: Db) {
    forall u, t :: u in db.profiles && t in db.profiles[u] ==> t in db.teams
  }

  ghost predicate NoDuplicateMembers(db: Db) {
    forall id :: id in db.teams ==> MembersDistinct(db.teams[id].members)
  }

  /** The referential invariant every handler preserves. */
  ghost predicate Consistent(db: Db) {
    NoDanglingTeams(db) && NoDuplicateMembers(db)
  }
}

=== FILE: team_controller.dfy ===
/** The team handlers, each a transition from the two collections to a
    reply and the collections afterwards. A permission check answered by the
    permission service is a boolean input; object-id validity is a boolean
    input; `Date.now()` is the input `now`. */
module TeamController {
  import opened Outcomes
  import opened Store
  import opened TeamOrder

  /** What a handler replies and the collections it leaves behind. */
  datatype Step<+T> = Step(result: Result<T>, db: Db)

  /** The `requestor` object of a request body: its role and its
      `permissions` object, if it carries one. */
  datatype Requestor = Requestor(role: string, permissions: Option<Permissions>)

  /** A `permissions` object; its `frontPermissions` array may be missing. */
  datatype Permissions = Permissions(frontPermissions: Option<seq<string>>)

  /** What an Assign or an Unassign answers with. */
  datatype AssignReply =
    | NewMember(profile: Option<set<TeamId>>)  // the profile after the update, or null when there is none
    | DeleteSuccess

  /** One document of the membership join: the profile a member entry refers to. */
  datatype MemberProfile = MemberProfile(userId: UserId, teams: set<TeamId>)

  // ---------------------------------------------------------------------
  // Reading
  // ---------------------------------------------------------------------

  /** `r` lists exactly the teams stored under the ids in `done`, each once. */
  ghost predicate Listing(teams: map<TeamId, Team>, r: seq<Entry>, done: set<TeamId>) {
    && |r| == |done|
    && (forall i :: 0 <= i < |r| ==> r[i].0 in done && r[i].0 in teams && r[i].1 == teams[r[i].0])
    && (forall id :: id in done ==> exists i :: 0 <= i < |r| && r[i].0 == id)
  }

  /** Inserting a stored team not yet listed extends the listing by its id. */
  lemma InsertExtendsListing(teams: map<TeamId, Team>, r: seq<Entry>, done: set<TeamId>, id: TeamId)
    requires SortedByName(r) && Listing(teams, r, done)
    requires id in teams && id !in done
    ensures Listing(teams, InsertByName((id, teams[id]), r), done + {id})
  {
    InsertContents((id, teams[id]), r);
    InsertKeepsEntries(teams, r, done, id);
    InsertKeepsIds(teams, r, done, id);
  }

  /** Each entry after an insertion is a stored team under a listed id. */
  lemma InsertKeepsEntries(teams: map<TeamId, Team>, r: seq<Entry>, done: set<TeamId>, id: TeamId)
    requires SortedByName(r) && Listing(teams, r, done)
    requires id in teams
    ensures var r' := InsertByName((id, teams[id]), r);
      forall i :: 0 <= i < |r'| ==> r'[i].0 in done + {id} && r'[i].0 in teams && r'[i].1 == teams[r'[i].0]
  {
    var e := (id, teams[id]);
    var r' := InsertByName(e, r);
    InsertContents(e, r);
    forall i | 0 <= i < |r'|
      ensures r'[i].0 in done + {id} && r'[i].0 in teams && r'[i].1 == teams[r'[i].0]
    {
      assert r'[i] in r';
      if r'[i] != e {
        var j :| 0 <= j < |r| && r[j] == r'[i];
      }
    }
  }

  /** Each listed id, and the inserted one, has an entry after an insertion. */
  lemma InsertKeepsIds(teams: map<TeamId, Team>, r: seq<Entry>, done: set<TeamId>, id: TeamId)
    requires SortedByName(r) && Listing(teams, r, done)
    requires id in teams
    ensures var r' := InsertByName((id, teams[id]), r);
      forall d :: d in done + {id} ==> exists i :: 0 <= i < |r'| && r'[i].0 == d
  {
    var e := (id, teams[id]);
    var r' := InsertByName(e, r);
    InsertContents(e, r);
    forall d | d in done + {id} ensures exists i :: 0 <= i < |r'| && r'[i].0 == d {
      if d == id {
        assert e in r';
        var i :| 0 <= i < |r'| && r'[i] == e;
      } else {
        var j :| 0 <= j < |r| && r[j].0 == d;
        assert r[j] in r';
        var i :| 0 <= i < |r'| && r'[i] == r[j];
      }
    }
  }

  /** `Team.find({}).sort({ teamName: 1 })`: every stored team once, with
      names ascending. */
  method GetAllTeams(db: Db) returns (r: seq<Entry>)
    ensures SortedByName(r)
    ensures |r| == |db.teams|
    ensures forall i :: 0 <= i < |r| ==> r[i].0 in db.teams && r[i].1 == db.teams[r[i].0]
    ensures forall id :: id in db.teams ==> exists i :: 0 <= i < |r| && r[i].0 == id
  {
    r := [];
    var rest := db.teams.Keys;
    ghost var done: set<TeamId> := {};
    while rest != {}
      invariant rest <= db.teams.Keys
      invariant done == db.teams.Keys - rest
      invariant SortedByName(r)
      invariant Listing(db.teams, r, done)
      decreases rest
    {
      var id :| id in rest;
      InsertExtendsListing(db.teams, r, done, id);
      DoneGrows(db.teams.Keys, rest, done, id);
      r, rest, done := InsertByName((id, db.teams[id]), r), rest - {id}, done + {id};
    }
    assert done == db.teams.Keys;
    ListingComplete(db.teams, r);
  }

  /** Moving one id from the ids still to list to the listed ones keeps the
      two sets partitioning the stored ids. */
  lemma DoneGrows(keys: set<TeamId>, rest: set<TeamId>, done: set<TeamId>, id: TeamId)
    requires rest <= keys && done == keys - rest && id in rest
    ensures rest - {id} <= keys && done + {id} == keys - (rest - {id})
  {
  }

  /** A listing of every stored id holds every stored team, each once. */
  lemma ListingComplete(teams: map<TeamId, Team>, r: seq<Entry>)
    requires Listing(teams, r, teams.Keys)
    ensures |r| == |teams|
    ensures forall i :: 0 <= i < |r| ==> r[i].0 in teams && r[i].1 == teams[r[i].0]
    ensures forall id :: id in teams ==> exists i :: 0 <= i < |r| && r[i].0 == id
  {
  }

  /** `Team.findById(teamId)`: the stored team, or null. */
  function GetTeamById(db: Db, teamId: TeamId): (r: Option<Team>)
    ensures r.Some? <==> teamId in db.teams
    ensures r.Some? ==> r.value == db.teams[teamId]
  {
    if teamId in db.teams then Some(db.teams[teamId]) else None
  }

  /** The entries and users after the first entry are entries and users of
      the whole array; with distinct users, the first user is not among them. */
  lemma TailMembers(members: seq<Member>)
    requires |members| > 0
    ensures forall m :: m in members[1..] ==> m in members
    ensures forall v :: IsMember(members[1..], v) ==> IsMember(members, v)
    ensures MembersDistinct(members) ==> !IsMember(members[1..], members[0].userId)
    ensures MembersDistinct(members) ==> MembersDistinct(members[1..])
  {
    forall v | IsMember(members[1..], v) ensures IsMember(members, v) {
      var i :| 0 <= i < |members[1..]| && members[1..][i].userId == v;
      assert members[i + 1].userId == v;
    }
    if MembersDistinct(members) {
      forall i | 0 <= i < |members[1..]| ensures members[1..][i].userId != members[0].userId {
        assert members[1..][i] == members[i + 1];
      }
    }
  }

  /** The `$unwind`/`$lookup`/`$unwind` pipeline: each member entry joined
      with the profile it names; an entry whose profile is missing yields no
      document. A user listed in several entries yields one
      document per entry. */
  function JoinProfiles(members: seq<Member>, profiles: Profiles): (rows: seq<MemberProfile>)
    ensures |rows| <= |members|
    ensures forall row :: row in rows ==>
      IsMember(members, row.userId) && row.userId in profiles && row.teams == profiles[row.userId]
    ensures forall m :: m in members && m.userId in profiles ==> MemberProfile(m.userId, profiles[m.userId]) in rows
    ensures (forall m :: m in members ==> m.userId in profiles) ==> |rows| == |members|
    ensures MembersDistinct(members) ==>
      forall i, j :: 0 <= i < j < |rows| ==> rows[i].userId != rows[j].userId
  {
    if |members| == 0 then []
    else
      var rest := JoinProfiles(members[1..], profiles);
      TailMembers(members);
      var u := members[0].userId;
      if u in profiles then
        var rows := [MemberProfile(u, profiles[u])] + rest;
        assert forall i :: 0 < i < |rows| ==> rows[i] in rest;
        rows
      else
        rest
  }

  /** Each user with a profile yields exactly as many join documents as
      the user has member entries. */
  lemma {:induction false} JoinProfilesCounts(members: seq<Member>, profiles: Profiles)
    ensures forall v :: v in profiles ==>
      multiset(JoinProfiles(members, profiles))[MemberProfile(v, profiles[v])] == CountEntries(members, v)
    decreases |members|
  {
    if |members| > 0 {
      JoinProfilesCounts(members[1..], profiles);
    }
  }

  /** `getTeamMembership`: rejects an ill-formed team id, and otherwise joins
      the members of the team (if it is stored) with their profiles. */
  function GetTeamMembership(db: Db, teamId: TeamId, teamIdWellFormed: bool): (r: Result<seq<MemberProfile>>)
    ensures r.Err? <==> !teamIdWellFormed
    ensures r.Err? ==> r.failure == InvalidId
    ensures r.Ok? && teamId !in db.teams ==> r.value == []
    ensures r.Ok? && teamId in db.teams ==>
      var members := db.teams[teamId].members;
      && (forall row :: row in r.value ==>
            IsMember(members, row.userId) && row.userId in db.profiles && row.teams == db.profiles[row.userId])
      && (forall m :: m in members && m.userId in db.profiles ==> MemberProfile(m.userId, db.profiles[m.userId]) in r.value)
      && (forall v :: v in db.profiles ==>
            multiset(r.value)[MemberProfile(v, db.profiles[v])] == CountEntries(members, v))
      && r.value == JoinProfiles(members, db.profiles)
  {
    if !teamIdWellFormed then Err(InvalidId)
    else if teamId !in db.teams then Ok([])
    else
      JoinProfilesCounts(db.teams[teamId].members, db.profiles);
      Ok(JoinProfiles(db.teams[teamId].members, db.profiles))
  }

  // ---------------------------------------------------------------------
  // Team lifecycle
  // ---------------------------------------------------------------------

  /** `postTeam`: checks the `postTeam` permission, then that no team has the
      name, then stores a new team with no members under the fresh id
      `newId`. */
  function PostTeam(db: Db, permitted: bool, teamName: string, isActive: bool,
                    now: Timestamp, newId: TeamId): (s: Step<Team>)
    requires newId !in db.teams
    ensures !permitted ==> s == Step(Err(Forbidden), db)
    ensures permitted && NameInUse(db.teams, teamName) ==> s == Step(Err(NameTaken), db)
    ensures s.result.Ok? <==> permitted && !NameInUse(db.teams, teamName)
    ensures s.result.Ok? ==>
      && s.db.profiles == db.profiles
      && s.db.teams.Keys == db.teams.Keys + {newId}
      && |s.db.teams| == |db.teams| + 1
      && (forall id :: id in db.teams ==> s.db.teams[id] == db.teams[id])
      && s.db.teams[newId] == s.result.value
      && s.result.value.teamName == teamName
      && s.result.value.isActive == isActive
      && s.result.value.members == []
  {
    if !permitted then Step(Err(Forbidden), db)
    else if NameInUse(db.teams, teamName) then Step(Err(NameTaken), db)
    else
      var team := Team(teamName, isActive, None, [], now, now);
      Step(Ok(team), db.(teams := db.teams[newId := team]))
  }

  /** The check `role === 'Owner' || permissions?.frontPermissions.includes('editTeamCode')`. */
  predicate CanEditTeamCode(requestor: Requestor) {
    requestor.role == "Owner"
    || (requestor.permissions.Some? && requestor.permissions.value.frontPermissions.Some?
        && "editTeamCode" in requestor.permissions.value.frontPermissions.value)
  }

  /** `permissions?.frontPermissions.includes(…)` throws when a non-Owner's
      `permissions` object has no `frontPermissions` array. */
  predicate EditTeamCodeThrows(requestor: Requestor) {
    requestor.role != "Owner" && requestor.permissions.Some? && requestor.permissions.value.frontPermissions.None?
  }

  /** `putTeam`: checks the `putTeam` permission, resolves the team, checks
      that the requestor may edit team codes (throwing when a non-Owner's
      permissions object lacks `frontPermissions`), then overwrites name,
      activity, code and both timestamps. */
  function PutTeam(db: Db, permitted: bool, requestor: Requestor, teamId: TeamId,
                   teamName: string, isActive: bool, teamCode: string, now: Timestamp): (s: Step<TeamId>)
    ensures !permitted ==> s == Step(Err(Forbidden), db)
    ensures permitted && teamId !in db.teams ==> s == Step(Err(NoRecord), db)
    ensures permitted && teamId in db.teams && EditTeamCodeThrows(requestor) ==> s == Step(Err(Thrown), db)
    ensures permitted && teamId in db.teams && !EditTeamCodeThrows(requestor) && !CanEditTeamCode(requestor) ==>
      s == Step(Err(Forbidden), db)
    ensures s.result.Ok? <==>
      permitted && teamId in db.teams
      && (requestor.role == "Owner"
          || (requestor.permissions.Some? && requestor.permissions.value.frontPermissions.Some?
              && "editTeamCode" in requestor.permissions.value.frontPermissions.value))
    ensures s.result.Ok? ==>
      && s.result.value == teamId
      && s.db.profiles == db.profiles
      && s.db.teams.Keys == db.teams.Keys
      && (forall id :: id in db.teams && id != teamId ==> s.db.teams[id] == db.teams[id])
      && s.db.teams[teamId].members == db.teams[teamId].members
      && s.db.teams[teamId].teamName == teamName
      && s.db.teams[teamId].isActive == isActive
      && s.db.teams[teamId].teamCode == Some(teamCode)
      && s.db.teams[teamId].createdDatetime == now
      && s.db.teams[teamId].modifiedDatetime == now
  {
    if !permitted then Step(Err(Forbidden), db)
    else if teamId !in db.teams then Step(Err(NoRecord), db)
    else if EditTeamCodeThrows(requestor) then Step(Err(Thrown), db)
    else if !CanEditTeamCode(requestor) then Step(Err(Forbidden), db)
    else
      var team := db.teams[teamId].(teamName := teamName, isActive := isActive, teamCode := Some(teamCode),
                                    createdDatetime := now, modifiedDatetime := now);
      Step(Ok(teamId), db.(teams := db.teams[teamId := team]))
  }

  /** `deleteTeam`: checks the `deleteTeam` permission, resolves the team,
      then pulls its id from every profile and removes it. */
  function DeleteTeam(db: Db, permitted: bool, teamId: TeamId): (s: Step<()>)
    ensures !permitted ==> s == Step(Err(Forbidden), db)
    ensures permitted && teamId !in db.teams ==> s == Step(Err(NoRecord), db)
    ensures s.result.Ok? <==> permitted && teamId in db.teams
    ensures s.result.Ok? ==>
      && s.db.teams.Keys == db.teams.Keys - {teamId}
      && (forall id :: id in s.db.teams ==> s.db.teams[id] == db.teams[id])
      && s.db.profiles.Keys == db.profiles.Keys
      && (forall u :: u in s.db.profiles ==> teamId !in s.db.profiles[u])
      && (forall u, t :: u in db.profiles && t != teamId ==> (t in s.db.profiles[u] <==> t in db.profiles[u]))
  {
    if !permitted then Step(Err(Forbidden), db)
    else if teamId !in db.teams then Step(Err(NoRecord), db)
    else Step(Ok(()), Db(db.teams - {teamId}, PullTeamFrom(db.profiles, db.profiles.Keys, teamId)))
  }

  // ---------------------------------------------------------------------
  // Membership
  // ---------------------------------------------------------------------

  /** `assignTeamToUsers`: checks the `assignTeamToUsers` permission, that the
      team id is non-empty and well formed, and that the team is stored; then
      `operation == "Assign"` adds the user to the members and the team to the
      user's profile, and any other operation pulls both. Either way the
      team's modification time becomes `now`. */
  function AssignTeamToUsers(db: Db, permitted: bool, teamId: TeamId, teamIdWellFormed: bool,
                             userId: UserId, operation: string, now: Timestamp): (s: Step<AssignReply>)
    ensures !permitted ==> s == Step(Err(Forbidden), db)
    ensures permitted && (|teamId| == 0 || !teamIdWellFormed) ==> s == Step(Err(InvalidId), db)
    ensures permitted && |teamId| > 0 && teamIdWellFormed && teamId !in db.teams ==> s == Step(Err(NoRecord), db)
    ensures s.result.Ok? <==> permitted && |teamId| > 0 && teamIdWellFormed && teamId in db.teams
    // only the team and the user's profile change, and only in their members and team ids
    ensures s.result.Ok? ==>
      && s.db.teams.Keys == db.teams.Keys
      && (forall id :: id in db.teams && id != teamId ==> s.db.teams[id] == db.teams[id])
      && s.db.teams[teamId] == db.teams[teamId].(members := s.db.teams[teamId].members, modifiedDatetime := now)
      && s.db.profiles.Keys == db.profiles.Keys
      && (forall u :: u in db.profiles && u != userId ==> s.db.profiles[u] == db.profiles[u])
      && (userId in db.profiles ==> s.db.profiles[userId] - {teamId} == db.profiles[userId] - {teamId})
    ensures s.result.Ok? && operation == "Assign" ==>
      var before := db.teams[teamId].members;
      var after := s.db.teams[teamId].members;
      && before <= after
      && |after| <= |before| + 1
      && (forall i :: |before| <= i < |after| ==> after[i] == Member(userId, None))
      && (forall v :: IsMember(after, v) <==> IsMember(before, v) || v == userId)
      && (IsMember(before, userId) ==> after == before)
      && (userId in db.profiles ==> teamId in s.db.profiles[userId])
      && s.result.value == NewMember(if userId in db.profiles then Some(s.db.profiles[userId]) else None)
    ensures s.result.Ok? && operation != "Assign" ==>
      var before := db.teams[teamId].members;
      var after := s.db.teams[teamId].members;
      && after == PullMember(before, userId)
      && (forall m :: m in after <==> m in before && m.userId != userId)
      && !IsMember(after, userId)
      && (!IsMember(before, userId) ==> after == before)
      && (userId in db.profiles ==> teamId !in s.db.profiles[userId])
      && s.result.value == DeleteSuccess
  {
    if !permitted then Step(Err(Forbidden), db)
    else if |teamId| == 0 || !teamIdWellFormed then Step(Err(InvalidId), db)
    else if teamId !in db.teams then Step(Err(NoRecord), db)
    else if operation == "Assign" then
      var db' := AssignWrites(db, teamId, userId, now);
      Step(Ok(NewMember(if userId in db'.profiles then Some(db'.profiles[userId]) else None)), db')
    else
      Step(Ok(DeleteSuccess), UnassignWrites(db, teamId, userId, now))
  }

  /** The two writes of an Assign: `$addToSet` of the member (with the new
      modification time) and `$addToSet` of the team in the user's profile. */
  function AssignWrites(db: Db, teamId: TeamId, userId: UserId, now: Timestamp): Db
    requires teamId in db.teams
  {
    var team := db.teams[teamId];
    Db(db.teams[teamId := team.(members := AddMember(team.members, userId), modifiedDatetime := now)],
       AddTeamTo(db.profiles, {userId}, teamId))
  }

  /** The two writes of an Unassign: `$pull` of the member (with the new
      modification time) and `$pull` of the team from the user's profile. */
  function UnassignWrites(db: Db, teamId: TeamId, userId: UserId, now: Timestamp): Db
    requires teamId in db.teams
  {
    var team := db.teams[teamId];
    Db(db.teams[teamId := team.(members := PullMember(team.members, userId), modifiedDatetime := now)],
       PullTeamFrom(db.profiles, {userId}, teamId))
  }

  /** `updateTeamVisibility`: resolves the team and the first member entry of
      `userId`, sets that entry's visible flag, and then adds the team to (when
      `visibility` holds) or pulls it from (otherwise) the profile of every
      OTHER member. The acting user's own profile is left as it is. No
      permission is checked. */
  function UpdateTeamVisibility(db: Db, teamId: TeamId, userId: UserId, visibility: bool,
                                now: Timestamp): (s: Step<()>)
    ensures teamId !in db.teams ==> s == Step(Err(NoRecord), db)
    ensures teamId in db.teams && !IsMember(db.teams[teamId].members, userId) ==> s == Step(Err(NotMember), db)
    ensures s.result.Ok? <==> teamId in db.teams && IsMember(db.teams[teamId].members, userId)
    // the team: only the first entry of the user changes, and only in its flag
    ensures s.result.Ok? ==>
      var before := db.teams[teamId].members;
      && s.db.teams.Keys == db.teams.Keys
      && (forall id :: id in db.teams && id != teamId ==> s.db.teams[id] == db.teams[id])
      && s.db.teams[teamId] == db.teams[teamId].(members := s.db.teams[teamId].members, modifiedDatetime := now)
      && exists k :: 0 <= k < |before| && before[k].userId == userId
           && (forall j :: 0 <= j < k ==> before[j].userId != userId)
           && s.db.teams[teamId].members == before[k := before[k].(visible := Some(visibility))]
    // the profiles: every other member's profile mirrors the new flag
    ensures s.result.Ok? ==>
      var before := db.teams[teamId].members;
      && s.db.profiles.Keys == db.profiles.Keys
      && (forall u :: u in db.profiles && u != userId && IsMember(before, u) ==>
            (teamId in s.db.profiles[u] <==> visibility)
            && s.db.profiles[u] - {teamId} == db.profiles[u] - {teamId})
      && (forall u :: u in db.profiles && (u == userId || !IsMember(before, u)) ==>
            s.db.profiles[u] == db.profiles[u])
  {
    if teamId !in db.teams then Step(Err(NoRecord), db)
    else
      var team := db.teams[teamId];
      match FindMember(team.members, userId)
      case None => Step(Err(NotMember), db)
      case Some(k) =>
        var members := team.members[k := team.members[k].(visible := Some(visibility))];
        assert forall v :: IsMember(members, v) <==> IsMember(team.members, v) by {
          assert forall i :: 0 <= i < |members| ==> members[i].userId == team.members[i].userId;
        }
        Step(Ok(()), VisibilityWrites(db, teamId, userId, visibility, now, k))
  }

  /** The writes of a visibility change at entry `k`: the team is saved with
      the flag of that entry set, then every other member's profile gains
      (`visibility` true) or loses (false) the team. */
  function VisibilityWrites(db: Db, teamId: TeamId, userId: UserId, visibility: bool, now: Timestamp,
                            k: nat): Db
    requires teamId in db.teams && k < |db.teams[teamId].members|
  {
    var team := db.teams[teamId];
    var members := team.members[k := team.members[k].(visible := Some(visibility))];
    var others := OtherMembers(members, userId);
    Db(db.teams[teamId := team.(members := members, modifiedDatetime := now)],
       if visibility then AddTeamTo(db.profiles, others, teamId) else PullTeamFrom(db.profiles, others, teamId))
  }
}

=== FILE: team_order.dfy ===
/** The order `sort({ teamName: 1 })` puts teams in: ascending team name,
    comparing names character by character by character code. */
module TeamOrder {
  import opened Store

  /** Lexicographic order on names; a proper prefix sorts first. */
  predicate NameLe(a: string, b: string) {
    if |a| == 0 then true
    else if |b| == 0 then false
    else if a[0] != b[0] then a[0] < b[0]
    else NameLe(a[1..], b[1..])
  }

  lemma {:induction false} NameLeReflexive(a: string)
    ensures NameLe(a, a)
    decreases |a|
  {
    if |a| > 0 {
      NameLeReflexive(a[1..]);
    }
  }

  lemma {:induction false} NameLeTotal(a: string, b: string)
    ensures NameLe(a, b) || NameLe(b, a)
    decreases |a|
  {
    if |a| > 0 && |b| > 0 && a[0] == b[0] {
      NameLeTotal(a[1..], b[1..]);
    }
  }

  lemma {:induction false} NameLeTransitive(a: string, b: string, c: string)
    requires NameLe(a, b) && NameLe(b, c)
    ensures NameLe(a, c)
    decreases |a|
  {
    if |a| > 0 && |b| > 0 && |c| > 0 && a[0] == b[0] && b[0] == c[0] {
      NameLeTransitive(a[1..], b[1..], c[1..]);
    }
  }

  /** A team listing paired with the id each team is stored under. */
  type Entry = (TeamId, Team)

  ghost predicate SortedByName(entries: seq<Entry>) {
    forall i, j :: 0 <= i < j < |entries| ==> NameLe(entries[i].1.teamName, entries[j].1.teamName)
  }

  /** Every entry of `entries` has a name at or above `name`. */
  ghost predicate AllFrom(name: string, entries: seq<Entry>) {
    forall j :: 0 <= j < |entries| ==> NameLe(name, entries[j].1.teamName)
  }

  lemma PrependSorted(e: Entry, entries: seq<Entry>)
    requires SortedByName(entries) && AllFrom(e.1.teamName, entries)
    ensures SortedByName([e] + entries)
  {
    var r := [e] + entries;
    forall i, j | 0 <= i < j < |r|
      ensures NameLe(r[i].1.teamName, r[j].1.teamName)
    {
      if i > 0 {
        assert r[i] == entries[i - 1] && r[j] == entries[j - 1];
      }
    }
  }

  lemma AllFromPermutation(name: string, entries: seq<Entry>, e: Entry, r: seq<Entry>)
    requires AllFrom(name, entries) && NameLe(name, e.1.teamName)
    requires multiset(r) == multiset(entries) + multiset{e}
    ensures AllFrom(name, r)
  {
    forall j | 0 <= j < |r|
      ensures NameLe(name, r[j].1.teamName)
    {
      assert r[j] in multiset(r);
      if r[j] != e {
        assert r[j] in multiset(entries);
        var k :| 0 <= k < |entries| && entries[k] == r[j];
      }
    }
  }

  lemma AllFromTransitive(a: string, b: string, entries: seq<Entry>)
    requires NameLe(a, b) && AllFrom(b, entries)
    ensures AllFrom(a, entries)
  {
    forall j | 0 <= j < |entries|
      ensures NameLe(a, entries[j].1.teamName)
    {
      NameLeTransitive(a, b, entries[j].1.teamName);
    }
  }

  /** Inserts `e` before the first entry whose name is not below it. */
  function InsertByName(e: Entry, entries: seq<Entry>): (r: seq<Entry>)
    requires SortedByName(entries)
    ensures SortedByName(r)
    ensures multiset(r) == multiset(entries) + multiset{e}
    decreases |entries|
  {
    if |entries| == 0 then [e]
    else
      var head := entries[0].1.teamName;
      assert entries == [entries[0]] + entries[1..];
      NameLeReflexive(head);
      assert AllFrom(head, entries[1..]);
      if NameLe(e.1.teamName, head) then
        AllFromTransitive(e.1.teamName, head, entries);
        PrependSorted(e, entries);
        [e] + entries
      else
        var rest := InsertByName(e, entries[1..]);
        NameLeTotal(e.1.teamName, head);
        AllFromPermutation(head, entries[1..], e, rest);
        PrependSorted(entries[0], rest);
        [entries[0]] + rest
  }

  /** The entries after an insertion are the entries before it and `e`. */
  lemma InsertContents(e: Entry, entries: seq<Entry>)
    requires SortedByName(entries)
    ensures |InsertByName(e, entries)| == |entries| + 1
    ensures forall x :: x in InsertByName(e, entries) <==> x in entries || x == e
  {
    var r := InsertByName(e, entries);
    assert |multiset(r)| == |multiset(entries)| + 1;
    forall x ensures x in r <==> x in entries || x == e {
      assert x in r <==> x in multiset(r);
      assert x in entries <==> x in multiset(entries);
    }
  }
}

=== FILE: team_properties.dfy ===
/** Properties that relate several handler calls, and the invariants of the
    two collections that each handler keeps. */
module TeamProperties {
  import opened Outcomes
  import opened Store
  import opened TeamController

  // ---------------------------------------------------------------------
  // Frame facts shared by the handlers
  // ---------------------------------------------------------------------

  /** Changing teams without renaming any keeps names unique. */
  lemma TeamEditKeepsNames(db: Db, db': Db)
    requires UniqueNames(db)
    requires db'.teams.Keys == db.teams.Keys
    requires forall id :: id in db.teams ==> db'.teams[id].teamName == db.teams[id].teamName
    ensures UniqueNames(db')
  {
  }

  /** Adding a stored team to profiles, or taking any team out of them, keeps
      every reference intact. */
  lemma ProfileEditKeepsReferences(db: Db, db': Db, teamId: TeamId)
    requires NoDanglingTeams(db) && teamId in db.teams
    requires db'.teams.Keys == db.teams.Keys
    requires db'.profiles.Keys == db.profiles.Keys
    requires forall u :: u in db.profiles ==> db'.profiles[u] - {teamId} <= db.profiles[u]
    ensures NoDanglingTeams(db')
  {
    forall u, t | u in db'.profiles && t in db'.profiles[u] ensures t in db'.teams {
      if t != teamId {
        assert t in db'.profiles[u] - {teamId};
      }
    }
  }

  // ---------------------------------------------------------------------
  // Create
  // ---------------------------------------------------------------------

  /** Creating a team keeps names unique and references intact. */
  lemma PostTeamPreservesInvariants(db: Db, permitted: bool, teamName: string, isActive: bool,
                                    now: Timestamp, newId: TeamId)
    requires newId !in db.teams
    requires UniqueNames(db) && Consistent(db)
    ensures UniqueNames(PostTeam(db, permitted, teamName, isActive, now, newId).db)
    ensures Consistent(PostTeam(db, permitted, teamName, isActive, now, newId).db)
  {
    var s := PostTeam(db, permitted, teamName, isActive, now, newId);
    if s.result.Ok? {
      assert forall a :: a in db.teams ==> db.teams[a].teamName != teamName;
    }
  }

  /** Of two creations with the same name, the second is refused and changes
      nothing. */
  lemma SecondPostWithSameNameFails(db: Db, teamName: string, active1: bool, active2: bool,
                                    now1: Timestamp, now2: Timestamp, id1: TeamId, id2: TeamId)
    requires id1 !in db.teams && id2 !in db.teams && id1 != id2
    requires !NameInUse(db.teams, teamName)
    ensures PostTeam(db, true, teamName, active1, now1, id1).result.Ok?
    ensures
      var db1 := PostTeam(db, true, teamName, active1, now1, id1).db;
      PostTeam(db1, true, teamName, active2, now2, id2) == Step(Err(NameTaken), db1)
  {
    var db1 := PostTeam(db, true, teamName, active1, now1, id1).db;
    assert db1.teams[id1].teamName == teamName;
  }

  // ---------------------------------------------------------------------
  // Update
  // ---------------------------------------------------------------------

  /** An update keeps references intact. */
  lemma PutTeamPreservesConsistency(db: Db, permitted: bool, requestor: Requestor, teamId: TeamId,
                                    teamName: string, isActive: bool, teamCode: string, now: Timestamp)
    requires Consistent(db)
    ensures Consistent(PutTeam(db, permitted, requestor, teamId, teamName, isActive, teamCode, now).db)
  {
  }

  /** An update does not check the new name against the other teams: renaming
      one of two teams to the other's name leaves two teams with that name. */
  lemma PutTeamMayDuplicateName()
    ensures
      var db := Db(map["t1" := Team("Alpha", true, None, [], 0, 0), "t2" := Team("Beta", true, None, [], 0, 0)], map[]);
      var s := PutTeam(db, true, Requestor("Owner", None), "t2", "Alpha", true, "code", 1);
      UniqueNames(db) && s.result.Ok? && !UniqueNames(s.db)
  {
    var db := Db(map["t1" := Team("Alpha", true, None, [], 0, 0), "t2" := Team("Beta", true, None, [], 0, 0)], map[]);
    var s := PutTeam(db, true, Requestor("Owner", None), "t2", "Alpha", true, "code", 1);
    assert "Alpha" != "Beta" by { assert "Alpha"[0] != "Beta"[0]; }
    assert s.db.teams["t1"].teamName == s.db.teams["t2"].teamName;
    assert "t1" != "t2" by { assert "t1"[1] != "t2"[1]; }
  }

  // ---------------------------------------------------------------------
  // Delete
  // ---------------------------------------------------------------------

  /** Deleting a team keeps names unique and leaves no profile referring to it. */
  lemma DeleteTeamPreservesInvariants(db: Db, permitted: bool, teamId: TeamId)
    requires UniqueNames(db) && Consistent(db)
    ensures UniqueNames(DeleteTeam(db, permitted, teamId).db)
    ensures Consistent(DeleteTeam(db, permitted, teamId).db)
  {
    var s := DeleteTeam(db, permitted, teamId);
    if s.result.Ok? {
      forall u, t | u in s.db.profiles && t in s.db.profiles[u] ensures t in s.db.teams {
        assert t != teamId;
        assert t in db.profiles[u];
      }
    }
  }

  /** After a deletion the team cannot be found, no profile lists it, and
      deleting it again is refused without effect. */
  lemma DeletedTeamIsGone(db: Db, teamId: TeamId)
    requires teamId in db.teams
    ensures
      var db1 := DeleteTeam(db, true, teamId).db;
      && GetTeamById(db1, teamId) == None
      && (forall u :: u in db1.profiles ==> teamId !in db1.profiles[u])
      && DeleteTeam(db1, true, teamId) == Step(Err(NoRecord), db1)
  {
  }

  // ---------------------------------------------------------------------
  // Assign and unassign
  // ---------------------------------------------------------------------

  /** Assigning or unassigning keeps names unique, members distinct and
      references intact. */
  lemma AssignPreservesInvariants(db: Db, permitted: bool, teamId: TeamId, teamIdWellFormed: bool,
                                  userId: UserId, operation: string, now: Timestamp)
    requires UniqueNames(db) && Consistent(db)
    ensures
      var s := AssignTeamToUsers(db, permitted, teamId, teamIdWellFormed, userId, operation, now);
      UniqueNames(s.db) && Consistent(s.db)
  {
    var s := AssignTeamToUsers(db, permitted, teamId, teamIdWellFormed, userId, operation, now);
    if s.result.Ok? {
      forall u, t | u in s.db.profiles && t in s.db.profiles[u] ensures t in s.db.teams {
        if t != teamId {
          assert t in db.profiles[u];
        }
      }
      forall a, b | a in s.db.teams && b in s.db.teams && s.db.teams[a].teamName == s.db.teams[b].teamName
        ensures a == b
      {
        assert db.teams[a].teamName == s.db.teams[a].teamName;
        assert db.teams[b].teamName == s.db.teams[b].teamName;
      }
    }
  }

  /** Assigning the same user twice changes nothing the first call did not. */
  lemma AssignIsIdempotent(db: Db, teamId: TeamId, teamIdWellFormed: bool, userId: UserId, now: Timestamp)
    ensures
      var s1 := AssignTeamToUsers(db, true, teamId, teamIdWellFormed, userId, "Assign", now);
      var s2 := AssignTeamToUsers(s1.db, true, teamId, teamIdWellFormed, userId, "Assign", now);
      s2.db == s1.db && s2.result == s1.result
  {
    var s1 := AssignTeamToUsers(db, true, teamId, teamIdWellFormed, userId, "Assign", now);
    var s2 := AssignTeamToUsers(s1.db, true, teamId, teamIdWellFormed, userId, "Assign", now);
    if s1.result.Ok? {
      assert s2.db.teams == s1.db.teams;
      assert s2.db.profiles == s1.db.profiles by {
        forall u | u in s1.db.profiles ensures s2.db.profiles[u] == s1.db.profiles[u] {
          if u == userId {
            assert s2.db.profiles[u] == s1.db.profiles[u] + {teamId};
          }
        }
      }
    }
  }

  /** Unassigning a user whom an Assign has just added restores both
      collections, apart from the team's modification time. */
  lemma UnassignUndoesAssign(db: Db, teamId: TeamId, userId: UserId, operation: string,
                             now1: Timestamp, now2: Timestamp)
    requires teamId != [] && teamId in db.teams
    requires !IsMember(db.teams[teamId].members, userId)
    requires userId in db.profiles ==> teamId !in db.profiles[userId]
    requires operation != "Assign"
    ensures
      var s1 := AssignTeamToUsers(db, true, teamId, true, userId, "Assign", now1);
      var s2 := AssignTeamToUsers(s1.db, true, teamId, true, userId, operation, now2);
      s2.db == db.(teams := db.teams[teamId := db.teams[teamId].(modifiedDatetime := now2)])
  {
    AssignStep(db, teamId, userId, now1);
    var db1 := AssignWrites(db, teamId, userId, now1);
    UnassignStep(db1, teamId, userId, operation, now2);
    UnassignWritesUndoAssignWrites(db, teamId, userId, now1, now2);
  }

  /** The writes of an Unassign undo those of an Assign, except the team's
      modification time. */
  lemma UnassignWritesUndoAssignWrites(db: Db, teamId: TeamId, userId: UserId, now1: Timestamp, now2: Timestamp)
    requires teamId in db.teams
    requires !IsMember(db.teams[teamId].members, userId)
    requires userId in db.profiles ==> teamId !in db.profiles[userId]
    ensures UnassignWrites(AssignWrites(db, teamId, userId, now1), teamId, userId, now2)
         == db.(teams := db.teams[teamId := db.teams[teamId].(modifiedDatetime := now2)])
  {
    AssignThenUnassignTeams(db, teamId, userId, now1, now2);
    AssignThenUnassignProfiles(db, teamId, userId, now1, now2);
  }

  /** The team collection after an Assign and an Unassign of a non-member. */
  lemma AssignThenUnassignTeams(db: Db, teamId: TeamId, userId: UserId, now1: Timestamp, now2: Timestamp)
    requires teamId in db.teams
    requires !IsMember(db.teams[teamId].members, userId)
    ensures UnassignWrites(AssignWrites(db, teamId, userId, now1), teamId, userId, now2).teams
         == db.teams[teamId := db.teams[teamId].(modifiedDatetime := now2)]
  {
    AssignedThenUnassignedTeam(db.teams[teamId], userId, now1, now2);
  }

  /** The profiles after an Assign and an Unassign of a user whose profile lacked the team. */
  lemma AssignThenUnassignProfiles(db: Db, teamId: TeamId, userId: UserId, now1: Timestamp, now2: Timestamp)
    requires teamId in db.teams
    requires userId in db.profiles ==> teamId !in db.profiles[userId]
    ensures UnassignWrites(AssignWrites(db, teamId, userId, now1), teamId, userId, now2).profiles == db.profiles
  {
    AddThenPullTeam(db.profiles, userId, teamId);
  }

  /** The team document after an Assign and then an Unassign of a user who
      was not a member. */
  lemma AssignedThenUnassignedTeam(team: Team, u: UserId, now1: Timestamp, now2: Timestamp)
    requires !IsMember(team.members, u)
    ensures var t1 := team.(members := AddMember(team.members, u), modifiedDatetime := now1);
      t1.(members := PullMember(t1.members, u), modifiedDatetime := now2) == team.(modifiedDatetime := now2)
  {
    PullAfterAdd(team.members, u);
  }

  /** Pulling a user just added to a members array without them gives back
      the array. */
  lemma PullAfterAdd(members: seq<Member>, u: UserId)
    requires !IsMember(members, u)
    ensures PullMember(AddMember(members, u), u) == members
  {
    PullAppended(members, u);
  }

  /** The stores after a successful Assign. */
  lemma AssignStep(db: Db, teamId: TeamId, userId: UserId, now: Timestamp)
    requires teamId != [] && teamId in db.teams
    ensures AssignTeamToUsers(db, true, teamId, true, userId, "Assign", now).db
         == AssignWrites(db, teamId, userId, now)
  {
  }

  /** The stores after a successful Unassign. */
  lemma UnassignStep(db: Db, teamId: TeamId, userId: UserId, operation: string, now: Timestamp)
    requires teamId != [] && teamId in db.teams && operation != "Assign"
    ensures AssignTeamToUsers(db, true, teamId, true, userId, operation, now).db
         == UnassignWrites(db, teamId, userId, now)
  {
  }

  /** Pulling a team right after adding it to one profile that lacked it
      gives back the profiles. */
  lemma AddThenPullTeam(profiles: Profiles, u: UserId, t: TeamId)
    requires u in profiles ==> t !in profiles[u]
    ensures PullTeamFrom(AddTeamTo(profiles, {u}, t), {u}, t) == profiles
  {
    var p2 := PullTeamFrom(AddTeamTo(profiles, {u}, t), {u}, t);
    forall v | v in profiles ensures p2[v] == profiles[v] {
      if v == u {
        assert p2[v] == (profiles[v] + {t}) - {t};
      }
    }
  }

  /** Unassigning a user who is not a member succeeds and changes only the
      team's modification time, provided the user's profile does not list the
      team. */
  lemma UnassignNonMemberChangesOnlyTime(db: Db, teamId: TeamId, userId: UserId, operation: string,
                                         now: Timestamp)
    requires teamId != [] && teamId in db.teams
    requires !IsMember(db.teams[teamId].members, userId)
    requires userId in db.profiles ==> teamId !in db.profiles[userId]
    requires operation != "Assign"
    ensures
      var s := AssignTeamToUsers(db, true, teamId, true, userId, operation, now);
      s == Step(Ok(DeleteSuccess), db.(teams := db.teams[teamId := db.teams[teamId].(modifiedDatetime := now)]))
  {
    var s := AssignTeamToUsers(db, true, teamId, true, userId, operation, now);
    assert s.db.profiles == db.profiles by {
      forall u | u in db.profiles ensures s.db.profiles[u] == db.profiles[u] {
        if u == userId {
          assert s.db.profiles[u] == db.profiles[u] - {teamId};
        }
      }
    }
  }

  /** Pulling a user who was appended to a members array without them gives
      back the array. */
  lemma {:induction false} PullAppended(members: seq<Member>, u: UserId)
    requires !IsMember(members, u)
    ensures PullMember(members + [Member(u, None)], u) == members
    decreases |members|
  {
    if |members| == 0 {
      assert PullMember([Member(u, None)], u) == PullMember([], u);
    } else {
      assert (members + [Member(u, None)])[1..] == members[1..] + [Member(u, None)];
      assert !IsMember(members[1..], u) by {
        forall i | 0 <= i < |members[1..]| ensures members[1..][i].userId != u {
          assert members[1..][i] == members[i + 1];
        }
      }
      PullAppended(members[1..], u);
      assert members[0].userId != u;
      assert members == [members[0]] + members[1..];
    }
  }

  // ---------------------------------------------------------------------
  // Visibility cascade
  // ---------------------------------------------------------------------

  /** The visibility cascade keeps names unique, members distinct and
      references intact. */
  lemma VisibilityPreservesInvariants(db: Db, teamId: TeamId, userId: UserId, visibility: bool, now: Timestamp)
    requires UniqueNames(db) && Consistent(db)
    ensures UniqueNames(UpdateTeamVisibility(db, teamId, userId, visibility, now).db)
    ensures Consistent(UpdateTeamVisibility(db, teamId, userId, visibility, now).db)
  {
    var s := UpdateTeamVisibility(db, teamId, userId, visibility, now);
    if teamId in db.teams && FindMember(db.teams[teamId].members, userId).Some? {
      var before := db.teams[teamId].members;
      var k := FindMember(before, userId).value;
      var after := before[k := before[k].(visible := Some(visibility))];
      assert s.db.teams == db.teams[teamId := db.teams[teamId].(members := after, modifiedDatetime := now)];
      assert MembersDistinct(after) by {
        assert forall i :: 0 <= i < |after| ==> after[i].userId == before[i].userId;
      }
      TeamEditKeepsNames(db, s.db);
      ProfileEditKeepsReferences(db, s.db, teamId);
    }
  }

  /** Repeating a visibility change changes nothing the first call did not. */
  lemma VisibilityIsIdempotent(db: Db, teamId: TeamId, userId: UserId, visibility: bool, now: Timestamp)
    ensures
      var s1 := UpdateTeamVisibility(db, teamId, userId, visibility, now);
      var s2 := UpdateTeamVisibility(s1.db, teamId, userId, visibility, now);
      s2 == s1
  {
    if teamId in db.teams && FindMember(db.teams[teamId].members, userId).Some? {
      var team := db.teams[teamId];
      var k := FindMember(team.members, userId).value;
      var mid := team.members[k := team.members[k].(visible := Some(visibility))];
      var db1 := VisibilityWrites(db, teamId, userId, visibility, now, k);
      VisibilityStep(db, teamId, userId, visibility, now);
      FindMemberSameIds(team.members, mid, userId);
      VisibilityStep(db1, teamId, userId, visibility, now);
      VisibilityWritesTwice(db, teamId, userId, visibility, now, k);
    }
  }

  lemma VisibilityWritesTwice(db: Db, teamId: TeamId, userId: UserId, visibility: bool, now: Timestamp, k: nat)
    requires teamId in db.teams && k < |db.teams[teamId].members|
    ensures
      var db1 := VisibilityWrites(db, teamId, userId, visibility, now, k);
      VisibilityWrites(db1, teamId, userId, visibility, now, k) == db1
  {
    var team := db.teams[teamId];
    var mid := team.members[k := team.members[k].(visible := Some(visibility))];
    var db1 := VisibilityWrites(db, teamId, userId, visibility, now, k);
    assert db1.teams[teamId].members == mid;
    assert mid[k := mid[k].(visible := Some(visibility))] == mid;
    var others := OtherMembers(mid, userId);
    if visibility {
      AddTeamToIdempotent(db.profiles, others, teamId);
    } else {
      PullTeamFromIdempotent(db.profiles, others, teamId);
    }
  }

  /** A successful visibility change, unfolded. */
  lemma VisibilityStep(db: Db, teamId: TeamId, userId: UserId, visibility: bool, now: Timestamp)
    requires teamId in db.teams && FindMember(db.teams[teamId].members, userId).Some?
    ensures
      var k := FindMember(db.teams[teamId].members, userId).value;
      UpdateTeamVisibility(db, teamId, userId, visibility, now)
        == Step(Ok(()), VisibilityWrites(db, teamId, userId, visibility, now, k))
  {
  }

  /** findIndex looks only at user ids. */
  lemma {:induction false} FindMemberSameIds(a: seq<Member>, b: seq<Member>, u: UserId)
    requires |a| == |b|
    requires forall i :: 0 <= i < |a| ==> a[i].userId == b[i].userId
    ensures FindMember(a, u) == FindMember(b, u)
    decreases |a|
  {
    if |a| > 0 {
      FindMemberSameIds(a[1..], b[1..], u);
    }
  }

  /** With members a, b and c, making the team visible for a adds it to the
      profiles of b and c and leaves a's profile as it was. */
  lemma VisibilityCascadeScenario(t: TeamId, a: UserId, b: UserId, c: UserId, teams0: set<TeamId>)
    requires a != b && a != c && b != c
    ensures
      var team := Team("Alpha", true, None, [Member(a, None), Member(b, None), Member(c, None)], 0, 0);
      var db := Db(map[t := team], map[a := teams0, b := {}, c := {}]);
      var s := UpdateTeamVisibility(db, t, a, true, 1);
      && s.result.Ok?
      && s.db.profiles[a] == teams0
      && s.db.profiles[b] == {t}
      && s.db.profiles[c] == {t}
      && s.db.teams[t].members == [Member(a, Some(true)), Member(b, None), Member(c, None)]
  {
    var members := [Member(a, None), Member(b, None), Member(c, None)];
    var team := Team("Alpha", true, None, members, 0, 0);
    var db := Db(map[t := team], map[a := teams0, b := {}, c := {}]);
    assert members[0].userId == a;
    assert IsMember(members, b) by { assert members[1].userId == b; }
    assert IsMember(members, c) by { assert members[2].userId == c; }
    var s := UpdateTeamVisibility(db, t, a, true, 1);
    assert b in db.profiles && c in db.profiles;
  }
}
